=== FILE: README.md ===
# Employee and user services, modelled in Dafny

This project models the service layer of a small employee-management
backend. It has two record stores.

- **Employees** (`EmployeeServiceImpl`): create, read, update, delete and
  list over a table keyed by a `long` id. Every lookup, update or delete
  of an id that is not stored fails with
  `"Employee not found for id :: " + id`.
- **Users** (`UserServiceImpl`): registration, which stores the encoded
  password and the single role `ROLE_USER`, and lookup by email for
  authentication. Lookup answers with the username, the password hash and
  one authority per role, or fails with `"Invalid username or password."`.
  It also fails when a role name has no text or the username is empty,
  because building the authority or the user details throws.

Each operation is a pure function, or a method for the listing. It
returns an outcome that holds two things:

- the table as it stands afterwards;
- either the response or the message of the exception the service throws.

So "a failure leaves the table unchanged" and "no other entry changes"
are stated as postconditions.

Files:

- `wrappers.dfy`: `Option` (Java's `Optional`), `Result`, and the
  `ServiceOutcome` of a service call.
- `java_long.dfy`: the range of Java's `long`. It also holds the decimal
  text that string concatenation gives an id (`Long.toString`), and a
  parser proved to invert it.
- `employee_service.dfy`: the employee table, the repository operations
  the service calls, the five service operations, and lemmas relating
  them.
- `user_service.dfy`: the users table, the role-to-authority mapping,
  registration, lookup, and lemmas relating them.

Assumptions about the repository, which is generated code and not part of
this model:

- `findById`, `existsById` and `findByEmail` look the key up.
- `save` of a row that already has an id replaces the row under that id.
- `save` of a new row stores it under a fresh id. That id is the
  parameter `newId`. The precondition is that it is not a key of the
  table; for users, that no stored user carries it. An id deleted earlier
  also meets this, so the assumption is more general than any generator.
- `deleteById` removes exactly that key.
- The users' email column is unique. The entity class, which is not part
  of this model, would declare this. So one email names at most one user,
  and the users table is keyed by email. With an email already present,
  `userRepository.save` throws out of `save`. The model returns this as
  `EmailTaken` and leaves the table unchanged. That branch comes from the
  assumed uniqueness, not from the service code.

The password encoder is the parameter `encode`. It takes the raw password
and the random salt drawn for this call, and the salt is a parameter too.
So the model does not force two registrations with the same raw password
to store the same hash; with different salts their hashes may differ.
The encoder is also assumed to return a hash for every password and salt;
beyond that, nothing is assumed about it.

Two library constructors throw, and the model follows their documented
checks:
- a granted authority is refused for a name with no non-whitespace
  character;
- the user details are refused for an empty username.

## Model

| member | source | states |
|---|---|---|
| EmployeeService.ToResponse | src/main/java/com/vsk/employee_management_webapp/service/serviceImplementation/EmployeeServiceImpl.java:104-106 | the response carries every field of the row: reading it back gives the row |
| EmployeeService.ToResponseInjective | src/main/java/com/vsk/employee_management_webapp/service/serviceImplementation/EmployeeServiceImpl.java:104-106 | two different rows never map to the same response |
| EmployeeService.NotFound | src/main/java/com/vsk/employee_management_webapp/service/serviceImplementation/EmployeeServiceImpl.java:56 | the not-found message starts with "Employee not found for id :: " |
| EmployeeService.NotFoundNamesId | src/main/java/com/vsk/employee_management_webapp/service/serviceImplementation/EmployeeServiceImpl.java:56 | the id parsed back out of a not-found message is exactly the id that was requested |
| EmployeeService.NotFoundInjective | src/main/java/com/vsk/employee_management_webapp/service/serviceImplementation/EmployeeServiceImpl.java:92 | different ids give different not-found messages |
| JavaLong.LongToString | src/main/java/com/vsk/employee_management_webapp/service/serviceImplementation/EmployeeServiceImpl.java:56 | `Long.toString` as called by string concatenation: non-empty, a '-' exactly for negative values, then decimal digits with no leading zero; `LongToStringRoundTrip` shows it loses nothing |
| JavaLong.LongToStringRoundTrip | src/main/java/com/vsk/employee_management_webapp/service/serviceImplementation/EmployeeServiceImpl.java:67 | the decimal text of a long, negative ones included, parses back to the same value |
| JavaLong.LongToStringInjective | src/main/java/com/vsk/employee_management_webapp/service/serviceImplementation/EmployeeServiceImpl.java:67 | two different longs never render to the same text |
| EmployeeService.FindById | src/main/java/com/vsk/employee_management_webapp/service/serviceImplementation/EmployeeServiceImpl.java:53 | the lookup finds a row exactly when the id is stored, and that row carries the id |
| EmployeeService.ExistsById | src/main/java/com/vsk/employee_management_webapp/service/serviceImplementation/EmployeeServiceImpl.java:65 | the existence check is true exactly when the id is stored |
| EmployeeService.SaveExisting | src/main/java/com/vsk/employee_management_webapp/service/serviceImplementation/EmployeeServiceImpl.java:99 | saving a row whose id is stored replaces the row under that id; the keys stay the same and every other entry is as it was |
| EmployeeService.DeleteById | src/main/java/com/vsk/employee_management_webapp/service/serviceImplementation/EmployeeServiceImpl.java:69 | deleting removes exactly that key; every remaining entry is unchanged |
| EmployeeService.GetEmployeeById | src/main/java/com/vsk/employee_management_webapp/service/serviceImplementation/EmployeeServiceImpl.java:51-60 | it never changes the table; it fails exactly when the id is absent, with the not-found message; otherwise the response has that id and the stored row's first name, last name and email |
| EmployeeService.DeleteEmployeeById | src/main/java/com/vsk/employee_management_webapp/service/serviceImplementation/EmployeeServiceImpl.java:63-71 | it fails exactly when the id is absent, with the not-found message, and the table is then unchanged; otherwise exactly that key is gone and every other entry is unchanged |
| EmployeeService.UpdateEmployee | src/main/java/com/vsk/employee_management_webapp/service/serviceImplementation/EmployeeServiceImpl.java:87-102 | it fails exactly when the id is absent, with the not-found message, and the table is then unchanged; otherwise the row keeps its id and takes the request's three fields, the keys stay the same, no other entry changes, and the response describes the updated row |
| EmployeeService.SaveEmployee | src/main/java/com/vsk/employee_management_webapp/service/serviceImplementation/EmployeeServiceImpl.java:38-48 | it always succeeds; it adds exactly one entry, under the fresh id, carrying the request's three fields; every earlier entry is unchanged; the response describes the new row |
| EmployeeService.FindAll | src/main/java/com/vsk/employee_management_webapp/service/serviceImplementation/EmployeeServiceImpl.java:32 | the rows found are every stored row, each once and as stored |
| EmployeeService.ListingSize | src/main/java/com/vsk/employee_management_webapp/service/serviceImplementation/EmployeeServiceImpl.java:32-34 | a listing of every row, each once, has exactly as many elements as the table |
| EmployeeService.GetAllEmployees | src/main/java/com/vsk/employee_management_webapp/service/serviceImplementation/EmployeeServiceImpl.java:30-35 | it does not change the table; it gives one response per stored row, each equal field for field to the row under its id, with no id repeated and no id missing |
| EmployeeService.GetAfterSave | src/main/java/com/vsk/employee_management_webapp/service/serviceImplementation/EmployeeServiceImpl.java:45-59 | looking up the id a save assigned returns the response the save returned |
| EmployeeService.DeleteUndoesSave | src/main/java/com/vsk/employee_management_webapp/service/serviceImplementation/EmployeeServiceImpl.java:45-69 | deleting the row a save just created succeeds and gives back the original table |
| EmployeeService.GetAfterDelete | src/main/java/com/vsk/employee_management_webapp/service/serviceImplementation/EmployeeServiceImpl.java:65-69 | after a delete the id is not found; a lookup of any other id answers as before |
| EmployeeService.GetAfterUpdate | src/main/java/com/vsk/employee_management_webapp/service/serviceImplementation/EmployeeServiceImpl.java:95-101 | after an update a lookup of the id returns the update's response; a lookup of any other id answers as before |
| EmployeeService.UpdateIdempotent | src/main/java/com/vsk/employee_management_webapp/service/serviceImplementation/EmployeeServiceImpl.java:95-99 | repeating an update with the same request leaves the table and the response as after the first |
| UserService.JavaWhitespaceEdges | src/main/java/com/vsk/employee_management_webapp/service/serviceImplementation/UserServiceImpl.java:63 | the whitespace test behind the authority check is Java's `Character.isWhitespace`: space, tab, newline, U+001F, U+2028 and U+3000 are whitespace; the no-break spaces U+00A0, U+2007 and U+202F, and U+180E and U+200B, are not |
| UserService.HasText | src/main/java/com/vsk/employee_management_webapp/service/serviceImplementation/UserServiceImpl.java:63 | the text test the authority check applies (`StringUtils.hasText`): a name has text exactly when some character in it is not whitespace |
| UserService.GrantedAuthority | src/main/java/com/vsk/employee_management_webapp/service/serviceImplementation/UserServiceImpl.java:63 | an authority is built exactly when the role name has a non-whitespace character, and it carries that name; otherwise the build throws "A granted authority textual representation is required" |
| UserService.RolesToAuthorities | src/main/java/com/vsk/employee_management_webapp/service/serviceImplementation/UserServiceImpl.java:62-64 | it succeeds exactly when every role name has text; there is then one authority per role, in the roles' order, and authority i is named after role i; otherwise it throws |
| UserService.AuthoritiesNameTheRoles | src/main/java/com/vsk/employee_management_webapp/service/serviceImplementation/UserServiceImpl.java:62-64 | the authority names equal the role names in order, so the roles can be rebuilt from the authorities |
| UserService.RolesToAuthoritiesAppend | src/main/java/com/vsk/employee_management_webapp/service/serviceImplementation/UserServiceImpl.java:63 | the mapping works role by role: mapping a concatenation succeeds exactly when both parts do, and gives the concatenation of the mapped parts |
| UserService.FindByEmail | src/main/java/com/vsk/employee_management_webapp/repository/UserRepository.java:11 | the lookup finds a user exactly when the email is stored, and that user carries the email |
| UserService.Register | src/main/java/com/vsk/employee_management_webapp/service/serviceImplementation/UserServiceImpl.java:35-48 | a new user copies the first name, last name and email from the request unchanged, stores encode(raw password, this call's salt) as its password, has exactly one role, named ROLE_USER, and gets the fresh id; no other user changes; a taken email is refused and the table is then unchanged |
| UserService.RegisterStoresNoRawPassword | src/main/java/com/vsk/employee_management_webapp/service/serviceImplementation/UserServiceImpl.java:42 | whenever the encoder changes the raw password, the stored password is not the raw password |
| UserService.LoadUserByUsername | src/main/java/com/vsk/employee_management_webapp/service/serviceImplementation/UserServiceImpl.java:51-65 | it never changes the table; it succeeds exactly when a user has the email, every one of their role names has text and the email is not empty; with no such user it fails with "Invalid username or password."; a role name without text and an empty username each give their own error; on success, username = the email, password = the stored hash, and the authority names are the role names in order |
| UserService.LoadAfterRegister | src/main/java/com/vsk/employee_management_webapp/service/serviceImplementation/UserServiceImpl.java:38-65 | right after a registration, looking up its email gives the email, the encoded password and the single authority ROLE_USER; only an empty email fails, when the details are built |
| UserService.RegisterKeepsOtherLookups | src/main/java/com/vsk/employee_management_webapp/service/serviceImplementation/UserServiceImpl.java:45 | a registration does not change what a lookup of any other email returns |

## Left out

- Pagination (`findPaginated`) is left out. The page and total arithmetic
  is done inside the persistence framework's page types, which are not part
  of this model. The controller also calls a `getPaginatedEmployees`
  method that the service interface does not declare.
- Token signing and parsing in `JwtUtils` are left out. They are done by a
  foreign library and depend on the wall clock and on a randomly
  generated fallback key.
- The security filter chain, the controllers, exception-to-HTTP
  translation and request validation are left out. They are framework
  configuration and declarative annotations with no logic in the service.
  Apart from the null check, the model does not assume validation: blank
  names and emails are accepted, as the service itself accepts them.
- Null fields cannot be represented: a Dafny string is never null. In the
  source, a null password would make `passwordEncoder.encode` throw inside
  `save` (UserServiceImpl.java:42), and null names would be stored. The
  controllers' `@Valid` checks on the request records keep nulls out.
- Logging is left out because it has no observable effect on the tables or
  the results.
- Role ids are not modelled. A role is created with a null id, and only its
  name is ever read.
- How the framework's user object stores authorities is not modelled. The
  service passes it a list of authorities in role order. That object then
  keeps them as a sorted set without duplicates. The model states the list
  the service builds.
- The private helper `mapRolesToAuthorities` (UserServiceImpl.java:68-70)
  is never called. The lookup does the same mapping inline at lines
  62-64, and that is what `RolesToAuthorities` models.
- Concurrency is not modelled. Operations are modelled as if they ran one
  at a time. Interleavings are not modelled. In the source, delete and
  update check and then act, with no transaction around the two steps. A
  delete that lands between `updateEmployee`'s `findById` and its `save`
  is therefore one such unmodelled interleaving.
- The entity classes (`model/Employee.java`, `model/User.java`,
  `model/Role.java`) and `dto/EmployeeResponse.java` are not part of
  this model. Their fields are taken from the constructor and getter calls
  in the two service classes.
- The id generator's strategy is not modelled. The model only requires
  that the id it hands out is not a key of the table.
- GetAllEmployees: the order of the list is whatever the repository
  returns and is not stated. `FindAll` leaves it to a free choice at each
  step.
- An exception from the encoder is not modelled. Some releases of the
  password encoder refuse a password longer than 72 bytes with an
  `IllegalArgumentException`. The registration form sets no maximum length
  (UserRegistrationRequest.java:16-18). So on such a release, `save` would
  throw where `Register` succeeds. The encoder's version is not part of
  this model.
- UserService.RegisterStoresNoRawPassword: nothing is known about the
  encoder beyond its being a function of the raw password and the salt. The claim that the raw password is never stored therefore holds
  only for encoders that change their input.

=== FILE: employee_service.dfy ===
/**
 The employee service: create, read, update, delete and list over the
 employee table. The JPA repository is a `map` from id to row, and every
 operation returns the table as it stands afterwards together with either
 its response or the message of the exception it throws.

 What the repository does, and the service relies on, is written out here
 as plain functions on the map: `findById` and `existsById` look the key
 up, `save` of a row that has an id replaces the row under that id, `save`
 of a new row stores it under an id that is not a key of the table, and
 `deleteById` removes exactly that key.
 */
module EmployeeService {
  import opened Wrappers
  import opened JavaLong

  /** The persisted entity. */
  datatype Employee = Employee(id: Long, firstName: string, lastName: string, email: string)

  /** The request body of a create or an update: the three editable fields. */
  datatype EmployeeRequest = EmployeeRequest(firstName: string, lastName: string, email: string)

  /** What the service hands back for a row. */
  datatype EmployeeResponse = EmployeeResponse(id: Long, firstName: string, lastName: string, email: string)

  /** Every row is stored under its own id. */
  predicate KeyedById(m: map<Long, Employee>) {
    forall id :: id in m ==> m[id].id == id
  }

  type EmployeeTable = m: map<Long, Employee> | KeyedById(m) witness map[]

  /** An employee operation's outcome; what it throws is a message. */
  type EmployeeOutcome<T> = ServiceOutcome<EmployeeTable, T, string>

  // ----- the response mapping and its inverse -----

  /** The editable fields of a row, as a request would carry them. */
  function RequestOf(e: Employee): EmployeeRequest {
    EmployeeRequest(e.firstName, e.lastName, e.email)
  }

  /** The row a response describes. */
  function FromResponse(r: EmployeeResponse): Employee {
    Employee(r.id, r.firstName, r.lastName, r.email)
  }

  /** `mapToEmployeeResponse`: the response carries every field of the row, so the row can be read back from it. */
  function ToResponse(e: Employee): (r: EmployeeResponse)
    ensures FromResponse(r) == e
  {
    EmployeeResponse(e.id, e.firstName, e.lastName, e.email)
  }

  lemma ToResponseInjective(a: Employee, b: Employee)
    requires ToResponse(a) == ToResponse(b)
    ensures a == b
  {
  }

  // ----- the error message -----

  const NotFoundPrefix: string := "Employee not found for id :: "

  /** The message every failing lookup, update and delete throws. */
  function NotFound(id: Long): (msg: string)
    ensures |msg| > |NotFoundPrefix| && msg[..|NotFoundPrefix|] == NotFoundPrefix
  {
    NotFoundPrefix + LongToString(id)
  }

  /** Reads the id back out of a not-found message. */
  function IdInMessage(msg: string): Option<int> {
    if |msg| >= |NotFoundPrefix| && msg[..|NotFoundPrefix|] == NotFoundPrefix
    then ParseLong(msg[|NotFoundPrefix|..])
    else None
  }

  /** The message names exactly the id that was asked for. */
  lemma NotFoundNamesId(id: Long)
    ensures IdInMessage(NotFound(id)) == Some(id)
  {
    assert NotFound(id)[|NotFoundPrefix|..] == LongToString(id);
    LongToStringRoundTrip(id);
  }

  lemma NotFoundInjective(a: Long, b: Long)
    requires NotFound(a) == NotFound(b)
    ensures a == b
  {
    NotFoundNamesId(a);
    NotFoundNamesId(b);
  }

  // ----- the repository, as operations on the map -----

  /** `findById`: the row under `id`, if there is one. */
  function FindById(table: EmployeeTable, id: Long): (r: Option<Employee>)
    ensures r.Some? <==> id in table
    ensures r.Some? ==> r.value.id == id && r.value == table[id]
  {
    if id in table then Some(table[id]) else None
  }

  /** `existsById`: whether a row is stored under `id`. */
  function ExistsById(table: EmployeeTable, id: Long): (b: bool)
    ensures b <==> id in table
  {
    FindById(table, id).Some?
  }

  /** `save` of a row that already has an id: it replaces the row under that id. */
  function SaveExisting(table: EmployeeTable, e: Employee): (t: EmployeeTable)
    requires e.id in table
    ensures t.Keys == table.Keys
    ensures t[e.id] == e
    ensures forall k :: k in table && k != e.id ==> t[k] == table[k]
  {
    table[e.id := e]
  }

  /** `deleteById`: removes exactly that key. */
  function DeleteById(table: EmployeeTable, id: Long): (t: EmployeeTable)
    ensures t.Keys == table.Keys - {id}
    ensures forall k :: k in t ==> t[k] == table[k]
  {
    table - {id}
  }

  // ----- the service operations -----

  /** `getEmployeeById`. */
  function GetEmployeeById(table: EmployeeTable, id: Long): (r: EmployeeOutcome<EmployeeResponse>)
    ensures r.table == table
    ensures r.result.Failure? <==> id !in table
    ensures id !in table ==> r.result.error == NotFound(id)
    ensures id in table ==> r.result.value.id == id && FromResponse(r.result.value) == table[id]
  {
    match FindById(table, id)
    case None => ServiceOutcome(table, Failure(NotFound(id)))
    case Some(e) => ServiceOutcome(table, Success(ToResponse(e)))
  }

  /** `deleteEmployeeById`: checks the id exists, then deletes it. */
  function DeleteEmployeeById(table: EmployeeTable, id: Long): (r: EmployeeOutcome<()>)
    ensures r.result.Failure? <==> id !in table
    ensures id !in table ==> r.table == table && r.result.error == NotFound(id)
    ensures r.table.Keys == table.Keys - {id}
    ensures forall k :: k in r.table ==> r.table[k] == table[k]
  {
    if !ExistsById(table, id) then ServiceOutcome(table, Failure(NotFound(id)))
    else ServiceOutcome(DeleteById(table, id), Success(()))
  }

  /** `updateEmployee`: overwrites the three editable fields of the row under `id`, keeping its id, and saves it. */
  function UpdateEmployee(table: EmployeeTable, id: Long, req: EmployeeRequest): (r: EmployeeOutcome<EmployeeResponse>)
    ensures r.result.Failure? <==> id !in table
    ensures id !in table ==> r.table == table && r.result.error == NotFound(id)
    ensures r.table.Keys == table.Keys
    ensures id in table ==> r.table[id].id == id && RequestOf(r.table[id]) == req
    ensures id in table ==> r.result.value.id == id && FromResponse(r.result.value) == r.table[id]
    ensures forall k :: k in table && k != id ==> r.table[k] == table[k]
  {
    match FindById(table, id)
    case None => ServiceOutcome(table, Failure(NotFound(id)))
    case Some(existing) =>
      var updated := existing.(firstName := req.firstName, lastName := req.lastName, email := req.email);
      var t := SaveExisting(table, updated);
      ServiceOutcome(t, Success(ToResponse(t[updated.id])))
  }

  /**
   `saveEmployee`: builds a new row from the request and saves it. The
   repository's id generator is the parameter `newId`, which is not a key
   of the table.
   */
  function SaveEmployee(table: EmployeeTable, req: EmployeeRequest, newId: Long): (r: EmployeeOutcome<EmployeeResponse>)
    requires newId !in table
    ensures r.result.Success?
    ensures r.table.Keys == table.Keys + {newId}
    ensures |r.table| == |table| + 1
    ensures r.table[newId].id == newId && RequestOf(r.table[newId]) == req
    ensures forall k :: k in table ==> r.table[k] == table[k]
    ensures FromResponse(r.result.value) == r.table[newId]
  {
    var saved := Employee(newId, req.firstName, req.lastName, req.email);
    var t := table[newId := saved];
    ServiceOutcome(t, Success(ToResponse(saved)))
  }

  // ----- listing -----

  /** `rows` holds every row of the table exactly once, each as stored. */
  predicate Lists(rows: seq<Employee>, table: EmployeeTable) {
    && (forall i :: 0 <= i < |rows| ==> rows[i].id in table && table[rows[i].id] == rows[i])
    && (forall i, j :: 0 <= i < j < |rows| ==> rows[i].id != rows[j].id)
    && (forall id :: id in table ==> exists i :: 0 <= i < |rows| && rows[i].id == id)
  }

  /** The ids of some rows. */
  function IdSet(rows: seq<Employee>): set<Long> {
    set i | 0 <= i < |rows| :: rows[i].id
  }

  lemma {:induction false} DistinctIdsCount(rows: seq<Employee>)
    requires forall i, j :: 0 <= i < j < |rows| ==> rows[i].id != rows[j].id
    ensures |IdSet(rows)| == |rows|
    decreases |rows|
  {
    if rows != [] {
      var n := |rows| - 1;
      var front := rows[..n];
      DistinctIdsCount(front);
      assert IdSet(rows) == IdSet(front) + {rows[n].id} by {
        forall x | x in IdSet(rows) ensures x in IdSet(front) + {rows[n].id} {
          var i :| 0 <= i < |rows| && rows[i].id == x;
          if i < n { assert front[i].id == x; }
        }
        forall x | x in IdSet(front) ensures x in IdSet(rows) {
          var i :| 0 <= i < |front| && front[i].id == x;
          assert rows[i].id == x;
        }
      }
      assert rows[n].id !in IdSet(front) by {
        assert forall i :: 0 <= i < |front| ==> front[i] == rows[i];
      }
    }
  }

  /** A listing has exactly as many rows as the table. */
  lemma ListingSize(rows: seq<Employee>, table: EmployeeTable)
    requires Lists(rows, table)
    ensures |rows| == |table|
  {
    DistinctIdsCount(rows);
    assert IdSet(rows) == table.Keys by {
      forall id | id in table ensures id in IdSet(rows) {
        var i :| 0 <= i < |rows| && rows[i].id == id;
      }
    }
  }

  /**
   `findAll`: every row, each once, in an order the repository does not
   promise; the order is left to the choice made at each step.
   */
  method FindAll(table: EmployeeTable) returns (rows: seq<Employee>)
    ensures Lists(rows, table)
  {
    rows := [];
    var remaining := table.Keys;
    while remaining != {}
      invariant remaining <= table.Keys
      invariant forall i :: 0 <= i < |rows| ==> rows[i].id in table && table[rows[i].id] == rows[i]
      invariant forall i :: 0 <= i < |rows| ==> rows[i].id !in remaining
      invariant forall i, j :: 0 <= i < j < |rows| ==> rows[i].id != rows[j].id
      invariant forall id :: id in table && id !in remaining ==> exists i :: 0 <= i < |rows| && rows[i].id == id
      decreases remaining
    {
      var id :| id in remaining;
      var before := rows;
      rows := rows + [table[id]];
      remaining := remaining - {id};
      assert rows[|before|].id == id;
      assert forall i :: 0 <= i < |before| ==> rows[i] == before[i];
    }
  }

  /** `getAllEmployees`: one response per row, field for field, and the table untouched. */
  method GetAllEmployees(table: EmployeeTable) returns (r: EmployeeOutcome<seq<EmployeeResponse>>)
    ensures r.table == table && r.result.Success?
    ensures |r.result.value| == |table|
    ensures forall i :: 0 <= i < |r.result.value| ==>
              r.result.value[i].id in table && FromResponse(r.result.value[i]) == table[r.result.value[i].id]
    ensures forall i, j :: 0 <= i < j < |r.result.value| ==> r.result.value[i].id != r.result.value[j].id
    ensures forall id :: id in table ==> exists i :: 0 <= i < |r.result.value| && r.result.value[i].id == id
  {
    var rows := FindAll(table);
    ListingSize(rows, table);
    var responses := seq(|rows|, i requires 0 <= i < |rows| => ToResponse(rows[i]));
    assert forall id :: id in table ==> exists i :: 0 <= i < |responses| && responses[i].id == id by {
      forall id | id in table ensures exists i :: 0 <= i < |responses| && responses[i].id == id {
        var i :| 0 <= i < |rows| && rows[i].id == id;
        assert responses[i].id == id;
      }
    }
    r := ServiceOutcome(table, Success(responses));
  }

  // ----- how the operations combine -----

  /** A saved employee is found again under its new id, with the response the save returned. */
  lemma GetAfterSave(table: EmployeeTable, req: EmployeeRequest, newId: Long)
    requires newId !in table
    ensures var s := SaveEmployee(table, req, newId);
            GetEmployeeById(s.table, newId).result == s.result
  {
  }

  /** Deleting the row a save just created gives back the table as it was. */
  lemma DeleteUndoesSave(table: EmployeeTable, req: EmployeeRequest, newId: Long)
    requires newId !in table
    ensures var d := DeleteEmployeeById(SaveEmployee(table, req, newId).table, newId);
            d.result.Success? && d.table == table
  {
  }

  /** After a delete the id is gone; every other lookup answers as before. */
  lemma GetAfterDelete(table: EmployeeTable, id: Long, other: Long)
    requires id != other
    ensures var t := DeleteEmployeeById(table, id).table;
            && GetEmployeeById(t, id).result == Failure(NotFound(id))
            && GetEmployeeById(t, other).result == GetEmployeeById(table, other).result
  {
  }

  /** After an update a lookup returns the update's response; other ids answer as before. */
  lemma GetAfterUpdate(table: EmployeeTable, id: Long, req: EmployeeRequest, other: Long)
    requires id != other
    ensures var u := UpdateEmployee(table, id, req);
            && GetEmployeeById(u.table, id).result == u.result
            && GetEmployeeById(u.table, other).result == GetEmployeeById(table, other).result
  {
  }

  /** Repeating an update with the same request changes nothing more. */
  lemma UpdateIdempotent(table: EmployeeTable, id: Long, req: EmployeeRequest)
    ensures var u := UpdateEmployee(table, id, req);
            UpdateEmployee(u.table, id, req) == u
  {
    var u := UpdateEmployee(table, id, req);
    if id in table {
      var v := UpdateEmployee(u.table, id, req);
      assert v.table[id] == u.table[id];
      assert v.table == u.table;
    }
  }
}

=== FILE: java_long.dfy ===
/**
 Java's 64-bit `long` and its decimal rendering, as produced by string
 concatenation (`"..." + id`, which calls `Long.toString`): an optional
 minus sign followed by the magnitude's decimal digits, most significant
 first, with no leading zeros. A parser is given as the rendering's
 inverse, so that a message built from an id provably names that id.
 */
module JavaLong {
  import opened Wrappers

  const MinLong: int := -0x8000_0000_0000_0000
  const MaxLong: int := 0x7FFF_FFFF_FFFF_FFFF

  /** The values a Java `long` can hold. */
  type Long = x: int | MinLong <= x <= MaxLong

  predicate IsDigit(c: char) {
    '0' <= c <= '9'
  }

  /** A non-empty run of decimal digits. */
  predicate IsDigits(s: string) {
    |s| > 0 && forall i :: 0 <= i < |s| ==> IsDigit(s[i])
  }

  function DigitChar(d: int): (c: char)
    requires 0 <= d < 10
    ensures IsDigit(c)
    ensures DigitValue(c) == d
  {
    ('0' as int + d) as char
  }

  function DigitValue(c: char): (d: int)
    requires IsDigit(c)
    ensures 0 <= d < 10
  {
    c as int - '0' as int
  }

  /** Decimal digits of a natural number; only zero starts with '0'. */
  function NatToString(n: nat): (s: string)
    ensures IsDigits(s)
    ensures s[0] == '0' <==> n == 0
    ensures n == 0 ==> s == "0"
    decreases n
  {
    if n < 10 then [DigitChar(n)] else NatToString(n / 10) + [DigitChar(n % 10)]
  }

  /** Reads a run of decimal digits back as a number. */
  function ParseNat(s: string): nat
    requires IsDigits(s)
    decreases |s|
  {
    if |s| == 1 then DigitValue(s[0])
    else ParseNat(s[..|s| - 1]) * 10 + DigitValue(s[|s| - 1])
  }

  lemma {:induction false} ParseNatToString(n: nat)
    ensures ParseNat(NatToString(n)) == n
    decreases n
  {
    if n >= 10 {
      var s := NatToString(n);
      assert s[..|s| - 1] == NatToString(n / 10);
      ParseNatToString(n / 10);
    }
  }

  /** `Long.toString(x)`: a '-' before the magnitude exactly when x is negative. */
  function LongToString(x: Long): (s: string)
    ensures |s| > 0
    ensures s[0] == '-' <==> x < 0
    ensures x >= 0 ==> IsDigits(s)
    ensures s[0] == '0' ==> x == 0
    ensures x < 0 ==> IsDigits(s[1..]) && s[1] != '0'
  {
    if x < 0 then "-" + NatToString(-(x as int)) else NatToString(x)
  }

  /** Reads an optionally signed run of decimal digits; None for any other text. */
  function ParseLong(s: string): Option<int>
  {
    if |s| > 1 && s[0] == '-' && IsDigits(s[1..]) then Some(-(ParseNat(s[1..]) as int))
    else if IsDigits(s) then Some(ParseNat(s))
    else None
  }

  /** The rendering loses nothing: parsing it gives the value back. */
  lemma LongToStringRoundTrip(x: Long)
    ensures ParseLong(LongToString(x)) == Some(x)
  {
    var s := LongToString(x);
    if x < 0 {
      assert s[1..] == NatToString(-(x as int));
      ParseNatToString(-(x as int));
    } else {
      ParseNatToString(x);
    }
  }

  /** Two different values never render to the same text. */
  lemma LongToStringInjective(x: Long, y: Long)
    requires LongToString(x) == LongToString(y)
    ensures x == y
  {
    LongToStringRoundTrip(x);
    LongToStringRoundTrip(y);
  }
}

=== FILE: user_service.dfy ===
/**
 The user service: registration, and the lookup by email that
 authentication performs. The users table is a `map` keyed by email: the
 users' email column is taken to be unique, so one email names at most one
 user, and saving a second user with an email already present makes the
 repository throw out of the registration instead of storing it.

 The password encoder is a parameter `encode` of the raw password and of
 the random salt drawn for this call; the salt is a parameter too, and the
 stored password is whatever the encoder returns for the two.
 */
module UserService {
  import opened Wrappers
  import opened JavaLong

  /** A role as stored with a user; only its name is ever read. */
  datatype Role = Role(name: string)

  /** The persisted account. */
  datatype User = User(id: Long, firstName: string, lastName: string, email: string, password: string, roles: seq<Role>)

  /** The registration form. */
  datatype RegistrationRequest = RegistrationRequest(firstName: string, lastName: string, email: string, password: string)

  /** A granted authority, named after a role. */
  datatype Authority = Authority(authority: string)

  /** What authentication receives for a user: username, password hash and authorities. */
  datatype UserDetails = UserDetails(username: string, password: string, authorities: seq<Authority>)

  /** The random bytes the password encoder draws for one call. */
  type Salt = seq<bv8>

  /** Every user is stored under its own email. */
  predicate KeyedByEmail(m: map<string, User>) {
    forall email :: email in m ==> m[email].email == email
  }

  type UserTable = m: map<string, User> | KeyedByEmail(m) witness map[]

  /**
   What the user operations throw: `UsernameNotFoundException` from a
   lookup, the repository refusing a second user with the same email, or
   an `IllegalArgumentException` from building an authority or the user
   details.
   */
  datatype UserError = UsernameNotFound(message: string) | EmailTaken(email: string) | IllegalArgument(message: string)

  /** A user operation's outcome. */
  type UserOutcome<T> = ServiceOutcome<UserTable, T, UserError>

  /** The one role every newly registered user gets. */
  const DefaultRole: string := "ROLE_USER"

  /** The message of a failed lookup; it does not say whether the email or the password was wrong. */
  const BadCredentials: string := "Invalid username or password."

  /** Thrown when an authority is built from a name with no text. */
  const AuthorityTextRequired: string := "A granted authority textual representation is required"

  /** Thrown when the user details are built with an empty username. */
  const EmptyDetailsValue: string := "Cannot pass null or empty values to constructor"

  /** The ids the stored users carry. */
  function UserIds(table: UserTable): set<Long> {
    set email | email in table :: table[email].id
  }

  // ----- roles to authorities -----

  /** Java's `Character.isWhitespace`. */
  predicate IsJavaWhitespace(c: char) {
    var n := c as int;
    || 0x09 <= n <= 0x0D
    || 0x1C <= n <= 0x20
    || n == 0x1680
    || 0x2000 <= n <= 0x2006
    || 0x2008 <= n <= 0x200A
    || n == 0x2028 || n == 0x2029 || n == 0x205F || n == 0x3000
  }

  /** The whitespace table at its edges: the no-break spaces and U+180E are not whitespace. */
  lemma JavaWhitespaceEdges()
    ensures IsJavaWhitespace(' ') && IsJavaWhitespace('\t') && IsJavaWhitespace('\n')
    ensures IsJavaWhitespace(0x1F as char) && IsJavaWhitespace(0x2028 as char) && IsJavaWhitespace(0x3000 as char)
    ensures !IsJavaWhitespace(0xA0 as char) && !IsJavaWhitespace(0x2007 as char) && !IsJavaWhitespace(0x202F as char)
    ensures !IsJavaWhitespace(0x180E as char) && !IsJavaWhitespace(0x200B as char) && !IsJavaWhitespace('R')
  {
  }

  /**
   `StringUtils.hasText`: scans the characters from the start and answers
   true at the first one that is not whitespace.
   */
  function HasText(s: string): (b: bool)
    ensures b <==> exists i :: 0 <= i < |s| && !IsJavaWhitespace(s[i])
    decreases |s|
  {
    if s == [] then false
    else if !IsJavaWhitespace(s[0]) then true
    else HasText(s[1..])
  }

  /** Every role has a name with text in it. */
  predicate AllNamed(roles: seq<Role>) {
    forall i :: 0 <= i < |roles| ==> HasText(roles[i].name)
  }

  /** The names of a list of roles, in order. */
  function RoleNames(roles: seq<Role>): seq<string> {
    seq(|roles|, i requires 0 <= i < |roles| => roles[i].name)
  }

  /** The names of a list of authorities, in order. */
  function AuthorityNames(auths: seq<Authority>): seq<string> {
    seq(|auths|, i requires 0 <= i < |auths| => auths[i].authority)
  }

  /** Building one authority from a role name: a name without text is refused. */
  function GrantedAuthority(name: string): (r: Result<Authority, UserError>)
    ensures r.Success? <==> HasText(name)
    ensures r.Failure? ==> r.error == IllegalArgument(AuthorityTextRequired)
    ensures r.Success? ==> r.value.authority == name
  {
    if HasText(name) then Success(Authority(name)) else Failure(IllegalArgument(AuthorityTextRequired))
  }

  /** One authority per role, named after it, in the roles' order; refused if any role name has no text. */
  function RolesToAuthorities(roles: seq<Role>): (r: Result<seq<Authority>, UserError>)
    ensures r.Success? <==> AllNamed(roles)
    ensures r.Failure? ==> r.error == IllegalArgument(AuthorityTextRequired)
    ensures r.Success? ==> |r.value| == |roles|
    ensures r.Success? ==> forall i :: 0 <= i < |roles| ==> r.value[i].authority == roles[i].name
    decreases |roles|
  {
    if roles == [] then Success([])
    else
      match GrantedAuthority(roles[0].name)
      case Failure(e) => Failure(e)
      case Success(first) =>
        match RolesToAuthorities(roles[1..])
        case Failure(e) => Failure(e)
        case Success(rest) => Success([first] + rest)
  }

  /** The authorities carry exactly the role names, so they can be turned back into the roles. */
  lemma AuthoritiesNameTheRoles(roles: seq<Role>)
    requires AllNamed(roles)
    ensures RolesToAuthorities(roles).Success?
    ensures AuthorityNames(RolesToAuthorities(roles).value) == RoleNames(roles)
    ensures seq(|roles|, i requires 0 <= i < |roles| => Role(RolesToAuthorities(roles).value[i].authority)) == roles
  {
  }

  /** The mapping works role by role: mapping a concatenation maps each part, and fails exactly when a part does. */
  lemma RolesToAuthoritiesAppend(a: seq<Role>, b: seq<Role>)
    ensures RolesToAuthorities(a + b).Success? <==> RolesToAuthorities(a).Success? && RolesToAuthorities(b).Success?
    ensures RolesToAuthorities(a + b).Success? ==>
              RolesToAuthorities(a + b).value == RolesToAuthorities(a).value + RolesToAuthorities(b).value
  {
    assert forall i :: 0 <= i < |a| ==> (a + b)[i] == a[i];
    assert forall i :: 0 <= i < |b| ==> (a + b)[|a| + i] == b[i];
  }

  // ----- the repository, as operations on the map -----

  /** `findByEmail`: the user registered under `email`, if any. */
  function FindByEmail(table: UserTable, email: string): (r: Option<User>)
    ensures r.Some? <==> email in table
    ensures r.Some? ==> r.value.email == email && r.value == table[email]
  {
    if email in table then Some(table[email]) else None
  }

  // ----- the service operations -----

  /**
   `save`: a new user with the request's names and email, the encoder's
   output for the raw password and this call's salt as password, and the
   single role ROLE_USER, stored under the id `newId`, which no stored
   user carries.
   */
  function Register(table: UserTable, req: RegistrationRequest, encode: (string, Salt) -> string, salt: Salt, newId: Long): (r: UserOutcome<User>)
    requires newId !in UserIds(table)
    ensures r.result.Failure? <==> req.email in table
    ensures req.email in table ==> r.table == table && r.result.error == EmailTaken(req.email)
    ensures r.result.Success? ==>
              && r.table.Keys == table.Keys + {req.email}
              && r.table[req.email] == r.result.value
              && UserIds(r.table) == UserIds(table) + {newId}
    ensures r.result.Success? ==>
              var u := r.result.value;
              && u.id == newId
              && u.firstName == req.firstName && u.lastName == req.lastName && u.email == req.email
              && u.password == encode(req.password, salt)
              && |u.roles| == 1 && u.roles[0].name == DefaultRole
    ensures forall email :: email in table ==> email in r.table && r.table[email] == table[email]
  {
    if req.email in table then ServiceOutcome(table, Failure(EmailTaken(req.email)))
    else
      var user := User(newId, req.firstName, req.lastName, req.email, encode(req.password, salt), [Role(DefaultRole)]);
      var t := table[req.email := user];
      assert UserIds(t) == UserIds(table) + {newId} by {
        forall id | id in UserIds(t) ensures id in UserIds(table) + {newId} {
          var e :| e in t && t[e].id == id;
          if e != req.email { assert table[e].id == id; }
        }
        forall id | id in UserIds(table) ensures id in UserIds(t) {
          var e :| e in table && table[e].id == id;
          assert t[e].id == id;
        }
        assert t[req.email].id == newId;
      }
      ServiceOutcome(t, Success(user))
  }

  /**
   `loadUserByUsername`: the user under `email`, seen as its email, its
   stored password and one authority per role. It fails with
   BadCredentials when no user has that email; building an authority from
   a role name without text throws, and so does building the details with
   an empty username. It reads and never writes.
   */
  function LoadUserByUsername(table: UserTable, email: string): (r: UserOutcome<UserDetails>)
    ensures r.table == table
    ensures r.result.Success? <==> email in table && AllNamed(table[email].roles) && email != ""
    ensures email !in table ==> r.result.error == UsernameNotFound(BadCredentials)
    ensures email in table && !AllNamed(table[email].roles) ==> r.result.error == IllegalArgument(AuthorityTextRequired)
    ensures email in table && AllNamed(table[email].roles) && email == "" ==> r.result.error == IllegalArgument(EmptyDetailsValue)
    ensures r.result.Success? ==>
              && r.result.value.username == email
              && r.result.value.password == table[email].password
              && AuthorityNames(r.result.value.authorities) == RoleNames(table[email].roles)
  {
    match FindByEmail(table, email)
    case None => ServiceOutcome(table, Failure(UsernameNotFound(BadCredentials)))
    case Some(user) =>
      match RolesToAuthorities(user.roles)
      case Failure(e) => ServiceOutcome(table, Failure(e))
      case Success(auths) =>
        if user.email == "" then ServiceOutcome(table, Failure(IllegalArgument(EmptyDetailsValue)))
        else ServiceOutcome(table, Success(UserDetails(user.email, user.password, auths)))
  }

  // ----- how the operations combine -----

  /**
   A registered user can be looked up at once, with the encoded password
   and the ROLE_USER authority; only an empty email is refused, when the
   details are built.
   */
  lemma LoadAfterRegister(table: UserTable, req: RegistrationRequest, encode: (string, Salt) -> string, salt: Salt, newId: Long)
    requires newId !in UserIds(table)
    requires req.email !in table
    ensures var t := Register(table, req, encode, salt, newId).table;
            LoadUserByUsername(t, req.email).result
              == if req.email == "" then Failure(IllegalArgument(EmptyDetailsValue))
                 else Success(UserDetails(req.email, encode(req.password, salt), [Authority(DefaultRole)]))
  {
    var t := Register(table, req, encode, salt, newId).table;
    assert !IsJavaWhitespace(DefaultRole[0]);
    assert AllNamed(t[req.email].roles);
    assert RolesToAuthorities(t[req.email].roles).value == [Authority(DefaultRole)];
  }

  /** A registration does not change what a lookup of any other email answers. */
  lemma RegisterKeepsOtherLookups(table: UserTable, req: RegistrationRequest, encode: (string, Salt) -> string, salt: Salt, newId: Long, email: string)
    requires newId !in UserIds(table)
    requires email != req.email
    ensures LoadUserByUsername(Register(table, req, encode, salt, newId).table, email).result
              == LoadUserByUsername(table, email).result
  {
  }

  /** The stored password is the encoder's output: whenever the encoder changes the raw password, the raw password is not what is stored. */
  lemma RegisterStoresNoRawPassword(table: UserTable, req: RegistrationRequest, encode: (string, Salt) -> string, salt: Salt, newId: Long)
    requires newId !in UserIds(table)
    requires req.email !in table
    requires encode(req.password, salt) != req.password
    ensures Register(table, req, encode, salt, newId).table[req.email].password != req.password
  {
  }
}

=== FILE: wrappers.dfy ===
/**
 The failure-carrying datatypes the services need: `Option` for a
 repository lookup that may find nothing (Java's `Optional`), `Result` for
 an operation that either returns a value or throws, and `ServiceOutcome` for a
 service call: the table as it stands afterwards, with the call's result.
 */
module Wrappers {

  datatype Option<+T> = None | Some(value: T)

  datatype Result<+T, +E> = Success(value: T) | Failure(error: E)

  /** The table after an operation and what the operation returned or threw. */
  datatype ServiceOutcome<+Table, +T, +E> = ServiceOutcome(table: Table, result: Result<T, E>)
}
